=== FILE: README.md ===
# Pricing engine model

A Dafny model of the pricing engine of a small retail-price calculator
(`app-backend/app.py`). The engine prices one of two product categories:

- **supplement**: five option multipliers (product shape, packing material,
  bottle size, male support, import origin) multiply into an *x-factor*; a
  *dosage factor*, capped at 3, comes from the count and the daily dose; the
  total cost is `380 + 1.4 * productCost + 50 * (3 - dosage)`; the final price
  is the total cost plus 5%, rounded **up** to a multiple of ten; the markup
  and markup percentage follow.
- **device**: the converted purchase cost is scaled by a *dimensional
  multiplier* (from volume and weight) and by the male-support and
  import-origin multipliers; the final price is a flat 10% above the total
  cost; profit and profit margin follow.

A request is a JSON object whose fields may be missing; each pricer
substitutes its own default for a missing field. The entry point rejects an
object with no keys at all, and otherwise dispatches on `category`: a missing
category or exactly `"supplement"` goes to the supplement pricer, anything
else to the device pricer.

All arithmetic is over Dafny `real`: the formulas are exact decimal
arithmetic and the source's floats only carry them. The ceiling is
`-((-x).Floor)`.

Files, one module each:

- `optional.dfy` (`Optional`): `Option` for possibly missing fields, `Result`.
- `multipliers.dfy` (`Multipliers`): the constant table, the
  never-failing lookup, and the left-to-right product of factors.
- `rounding.dfy` (`Rounding`): ceiling and rounding up to a multiple of ten.
- `request.dfy` (`Requests`): the request object with optional fields.
- `supplement.dfy` (`SupplementPricing`): defaults, x-factor, days of supply,
  dosage factor, the supplement breakdown and its properties.
- `device.dfy` (`DevicePricing`): defaults, dimensional multiplier, the
  device breakdown and its properties.
- `engine.dfy` (`PricingEngine`): the empty-request guard and the category
  dispatch.

The code is lenient in several places, and the model follows it:

- An option key that a family does not list counts as 1.
- A zero total cost gives a markup percentage (supplement) or profit margin
  (device) of 0.
- A zero days-of-supply sets the dose to 3 directly.
- Any category other than `"supplement"` is priced as a device.
- Male support multiplies the device total cost by 1.45. For a supplement it
  multiplies the x-factor by 1.45, and the supplement total cost grows by
  `0.63 * purchasePrice * xfactor * fxRate`
  (`SupplementPricing.MaleSupportCostIncrease`).

## Model

| member | source | states |
|---|---|---|
| Multipliers.Lookup | app-backend/app.py:69-73 | a key the family does not list yields exactly 1 and never fails; every multiplier, listed or not, lies in [0.72, 1.45] and so is positive |
| Multipliers.ListedFactors | app-backend/app.py:40-53 | each of the 19 listed options of the five families has exactly its tabled factor |
| Multipliers.LookupIsCaseSensitive | app-backend/app.py:69-73 | illustrates the exact-match lookup: for example "yes", "gummies", "us" and "" count as 1 |
| Multipliers.ProductScale | app-backend/app.py:76 | scaling any one factor of the x-factor product by c scales the whole product by c |
| Multipliers.ProductPositive | app-backend/app.py:76 | a product of positive multipliers is positive |
| Multipliers.ProductOfFive | app-backend/app.py:76 | five factors multiplied left to right give exactly `a * b * c * d * e` |
| Rounding.Ceil | app-backend/app.py:107 | the ceiling n of x satisfies x <= n < x + 1 |
| Rounding.CeilToTen | app-backend/app.py:105-107 | the rounded price is a multiple of ten, at least the input and less than ten above it |
| Rounding.CeilToTenIsLeast | app-backend/app.py:104-107 | the rounded price is below or equal to every multiple of ten that covers the input |
| Rounding.CeilToTenMonotone | app-backend/app.py:104-107 | rounding up is monotone and leaves a multiple of ten unchanged |
| SupplementPricing.Resolve | app-backend/app.py:57-66 | each of the ten supplement fields is taken as given when present and otherwise defaults to 44, 50, "Capsules/Tablets", "Paper", "Normal", "No", "US", 120, 2 and 100 (`SupplementDefaults`); a request that sets none of them resolves to exactly those defaults |
| SupplementPricing.XFactor | app-backend/app.py:75-76 | the x-factor is positive for any choice of options, listed or not |
| SupplementPricing.XFactorValue | app-backend/app.py:69-76 | for every input the x-factor equals shape * packing * bottle-size * male-support * import multiplier, each looked up for that input's option |
| SupplementPricing.DaysSupply | app-backend/app.py:79-82 | a zero daily dose gives days of supply equal to the count; otherwise days times dose equals the count |
| SupplementPricing.Dosage | app-backend/app.py:84-94 | the dosage factor never exceeds 3, is 3 when there is no supply, and is positive for a non-negative supply |
| SupplementPricing.Price | app-backend/app.py:75-116 | the x-factor is the product of the five option multipliers, days of supply comes from count and daily dose, and the dosage factor from days of supply; product cost = purchase price * x-factor * exchange rate + weight * 32 * exchange rate / 1000 (`ProductCostFor`, at this breakdown's x-factor); base cost 380; adjusted cost = 1.4 * product cost; dosage adjustment = 50 * (3 - dosage) with dosage <= 3, so it is >= 0; total = base + adjusted + dosage adjustment; final price is a multiple of ten within [1.05 * total, 1.05 * total + 10); markup = final - total and >= 5% of the total; percentage * total = 100 * markup for a non-zero total, percentage and price 0 for a zero total |
| SupplementPricing.FinalPriceIsLeast | app-backend/app.py:104-107 | the final price is the least multiple of ten at or above 1.05 times the total cost |
| SupplementPricing.DosageClosedForm | app-backend/app.py:84-94 | the dosage factor equals 3 for a supply of 0 to 30 days and 90 / daysSupply otherwise |
| SupplementPricing.ZeroDivisorPolicy | app-backend/app.py:79-92 | a zero daily dose makes days of supply equal to the count; a zero count gives dosage 3 and no dosage adjustment |
| SupplementPricing.ProductCostNonNegative | app-backend/app.py:98 | non-negative price, exchange rate and weight give a non-negative product cost |
| SupplementPricing.NonNegativeInputsCost | app-backend/app.py:97-107 | with non-negative price, exchange rate and weight the total cost is at least 380 and the final price at least 400 |
| SupplementPricing.NonNegativeInputsMarkup | app-backend/app.py:111-116 | with non-negative price, exchange rate and weight the markup percentage is at least 5 |
| SupplementPricing.MaleSupportScalesXFactor | app-backend/app.py:72-76 | all else equal, "Yes" for male support makes the x-factor exactly 1.45 times its "No" value |
| SupplementPricing.MaleSupportProductCost | app-backend/app.py:98 | all else equal, male support adds 0.45 times the converted, x-factor-scaled purchase cost to the product cost |
| SupplementPricing.MaleSupportCostIncrease | app-backend/app.py:96-101 | all else equal, male support adds 0.63 * purchasePrice * xfactor("No") * fxRate to the supplement total cost |
| SupplementPricing.DefaultBreakdown | app-backend/app.py:57-116 | with every supplement field missing: x-factor 1.06, 60 days, dosage 1.5, product cost 2492, adjusted 3488.8, dosage adjustment 75, total 3943.8, final price 4150, markup 206.2, percentage 206.2/3943.8*100 (5.23 to two places) |
| DevicePricing.Resolve | app-backend/app.py:134-141 | each of the eight device fields is taken as given when present and otherwise defaults to 44, 50, 10, 45, 20, 0.3, "No" and "US" (`DeviceDefaults`); a request that sets none of them resolves to exactly those defaults |
| DevicePricing.DimensionalMultiplier | app-backend/app.py:147-148 | for non-negative dimensions and weight the dimensional multiplier is at least 1 |
| DevicePricing.WeightAddsTen | app-backend/app.py:148 | all else equal, every extra kilogram of weight adds exactly 10 to the dimensional multiplier |
| DevicePricing.DimensionalMultiplierMonotone | app-backend/app.py:147-148 | all else equal, growing non-negative length, width or height never lowers the dimensional multiplier |
| DevicePricing.Price | app-backend/app.py:143-166 | base cost = purchase price * exchange rate; the dimensional multiplier is the one computed from the dimensions and weight; total = base cost * dimensional multiplier * male-support multiplier * import multiplier; final price = 1.1 * total; profit = final price - total cost = total cost / 10; profit margin is exactly 10 for a non-zero total cost and 0 for a zero one |
| DevicePricing.ZeroCost | app-backend/app.py:144-155 | the total cost is zero exactly when the purchase price, the exchange rate or the dimensional multiplier is zero |
| DevicePricing.MaleSupportScalesCost | app-backend/app.py:151-161 | all else equal, male support multiplies the device total cost, final price and profit by exactly 1.45 |
| DevicePricing.DefaultBreakdown | app-backend/app.py:134-166 | with every device field missing: base cost 2200, dimensional multiplier 13, total 28600, final price 31460, profit 2860, margin 10 |
| PricingEngine.Calculate | app-backend/app.py:183-193 | fails exactly for a request with no keys; otherwise the supplement pricer is chosen exactly when the category is missing or "supplement", and the chosen pricer prices the whole request |
| PricingEngine.OtherCategoriesAreDevices | app-backend/app.py:187-193 | illustrates the dispatch: for example "device", "Supplement" and "" are priced as devices |
| PricingEngine.SupplementQuoteReadsOnlySupplementFields | app-backend/app.py:57-66 | two supplement requests agreeing on the ten supplement fields get the same quote, whatever else they carry |
| PricingEngine.DeviceQuoteReadsOnlyDeviceFields | app-backend/app.py:134-141 | two device requests agreeing on the eight device fields get the same quote, whatever else they carry |
| PricingEngine.DefaultQuotes | app-backend/app.py:187-193 | a non-empty request that sets no pricing field is priced 4150 as a supplement and 31460 as a device |

## Left out

- Flask setup, CORS, the `/calculate` route's JSON handling and the
  exception-to-HTTP-500 path: transport. The empty-object guard that answers
  400 is modelled as the `NoInputData` error.
- The SQLAlchemy `Calculation` record, table creation, saving each calculation
  and the database settings from the environment: persistence. One
  consequence is not modelled: the record's category column is non-null and
  at most 50 characters (app-backend/app.py:26), so a JSON `null` category or
  one longer than 50 characters is priced as a device, the save then fails
  and the request ends in HTTP 500, where `PricingEngine.Calculate` returns
  `Ok(DeviceQuote(...))`.
- `float(...)` coercion of raw JSON values, and the `TypeError`/`ValueError`
  it raises for a non-numeric value: numeric fields are modelled as
  already-converted reals.
- Option and category values that are not strings: the model types these
  fields as strings. In the code a JSON `null`, number or boolean option
  counts as 1 and such a category is priced as a device, while an array or
  object option raises `TypeError` (an unhashable key) and the request
  ends in HTTP 500.
- Non-finite values. An integer JSON literal too large for a float (a
  400-digit number, say) makes `float(...)` raise `OverflowError`
  (app-backend/app.py:57-66, 134-139), and the request ends in HTTP 500.
  A purchase price, exchange rate or weight that is infinite or NaN, or
  large enough to overflow (1e308, say), makes the float total cost
  infinite or NaN. The supplement pricer then raises from `math.ceil`, and
  the request ends in HTTP 500. The device pricer returns infinite or NaN
  fields. A NaN count or daily dose also gives a NaN total and the same
  error. An infinite days of supply (an infinite count, or a count and dose
  whose quotient overflows) gives a months of supply of infinity, a dosage
  factor of exactly 0 and a finite price. With the other defaults that is a
  total of 4018.8 and a price of 4220. The model cannot produce this:
  `Dosage` is positive for every non-negative supply. An infinite daily
  dose gives a supply of 0 and dosage 3, as a zero count does. Over the
  reals the model always returns a finite price.
- `round(x, n)` on the returned fields: presentation; every property is
  stated on the unrounded values.
- Floating-point effects: the `monthsSupply == 0` branch for a non-zero days
  of supply is reachable only by float underflow and is dead over the reals;
  a float total cost whose 5% markup lands near a multiple of ten can round
  to one step above or below the exact value's rounding.
- The front end (React UI state and its `fetch` call); its copy of the
  multiplier table is the same data.

=== FILE: device.dfy ===
/** Pricing of a device: the converted purchase cost scaled by a
    dimensional multiplier (from volume and weight) and by the male-support
    and import-origin multipliers, then marked up by a flat 10%. */
module DevicePricing {
  import opened Optional
  import opened Requests
  import opened Multipliers

  /** The device fields of a request once every missing one has its default. */
  datatype Input = Input(
    purchasePrice: real,
    fxRate: real,
    lengthCm: real,
    widthCm: real,
    heightCm: real,
    weightKg: real,
    isMaleSupport: string,
    importFrom: string)

  /** The cost and price breakdown returned for a device. */
  datatype Breakdown = Breakdown(
    baseCost: real,
    dimensionalMultiplier: real,
    totalCost: real,
    finalPrice: real,
    profit: real,
    profitMargin: real)

  /** The value each device field takes when the request leaves it out:
      purchase price 44, exchange rate 50, 10 x 45 x 20 cm, 0.3 kg, no male
      support, from the US. */
  const DeviceDefaults: Input := Input(44.0, 50.0, 10.0, 45.0, 20.0, 0.3, "No", "US")

  /** Reads the device fields of a request: a present field is taken as
      given, a missing one gets its default. */
  function Resolve(req: Request): (r: Input)
    ensures ResolvesTo(req.purchasePrice, DeviceDefaults.purchasePrice, r.purchasePrice)
    ensures ResolvesTo(req.fxRate, DeviceDefaults.fxRate, r.fxRate)
    ensures ResolvesTo(req.lengthCm, DeviceDefaults.lengthCm, r.lengthCm)
    ensures ResolvesTo(req.widthCm, DeviceDefaults.widthCm, r.widthCm)
    ensures ResolvesTo(req.heightCm, DeviceDefaults.heightCm, r.heightCm)
    ensures ResolvesTo(req.weightKg, DeviceDefaults.weightKg, r.weightKg)
    ensures ResolvesTo(req.isMaleSupport, DeviceDefaults.isMaleSupport, r.isMaleSupport)
    ensures ResolvesTo(req.importFrom, DeviceDefaults.importFrom, r.importFrom)
    ensures SetsNoDeviceField(req) ==> r == DeviceDefaults
  {
    Input(
      req.purchasePrice.GetOr(DeviceDefaults.purchasePrice),
      req.fxRate.GetOr(DeviceDefaults.fxRate),
      req.lengthCm.GetOr(DeviceDefaults.lengthCm),
      req.widthCm.GetOr(DeviceDefaults.widthCm),
      req.heightCm.GetOr(DeviceDefaults.heightCm),
      req.weightKg.GetOr(DeviceDefaults.weightKg),
      req.isMaleSupport.GetOr(DeviceDefaults.isMaleSupport),
      req.importFrom.GetOr(DeviceDefaults.importFrom))
  }

  /** The request sets none of the fields the device pricer reads. */
  predicate SetsNoDeviceField(req: Request)
  {
    && req.purchasePrice.None? && req.fxRate.None?
    && req.lengthCm.None? && req.widthCm.None? && req.heightCm.None? && req.weightKg.None?
    && req.isMaleSupport.None? && req.importFrom.None?
  }

  /** One plus the volume in cubic metres times 1000, plus ten times the
      weight in kilograms. For non-negative dimensions and weight it is at
      least one. */
  function DimensionalMultiplier(inp: Input): (d: real)
    ensures 0.0 <= inp.lengthCm && 0.0 <= inp.widthCm && 0.0 <= inp.heightCm && 0.0 <= inp.weightKg
            ==> 1.0 <= d
  {
    var volumeFactor := inp.lengthCm * inp.widthCm * inp.heightCm / 1000000.0;
    assert 0.0 <= inp.lengthCm && 0.0 <= inp.widthCm ==> 0.0 <= inp.lengthCm * inp.widthCm;
    1.0 + volumeFactor * 1000.0 + inp.weightKg * 10.0
  }

  /** Each extra kilogram of weight adds exactly 10 to the dimensional
      multiplier, all else equal. */
  lemma WeightAddsTen(inp: Input, extraKg: real)
    ensures DimensionalMultiplier(inp.(weightKg := inp.weightKg + extraKg))
         == DimensionalMultiplier(inp) + 10.0 * extraKg
  {
  }

  /** The dimensional multiplier never decreases when a non-negative length,
      width or height grows, all else equal. */
  lemma {:induction false} DimensionalMultiplierMonotone(inp: Input, l: real, w: real, h: real)
    requires 0.0 <= inp.lengthCm <= l && 0.0 <= inp.widthCm <= w && 0.0 <= inp.heightCm <= h
    ensures DimensionalMultiplier(inp) <= DimensionalMultiplier(inp.(lengthCm := l, widthCm := w, heightCm := h))
  {
    var x, y, z := inp.lengthCm, inp.widthCm, inp.heightCm;
    ScaleMonotone(x, l, y);
    ScaleMonotone(y, w, l);
    assert x * y <= l * w;
    ScaleMonotone(x * y, l * w, z);
    ScaleMonotone(z, h, l * w);
    assert x * y * z <= l * w * h;
  }

  // Multiplying by a non-negative factor keeps the order.
  lemma ScaleMonotone(a: real, b: real, c: real)
    requires a <= b && 0.0 <= c
    ensures a * c <= b * c && c * a <= c * b
  {
  }

  /** The converted cost scaled by the dimensional and option multipliers. */
  function TotalCost(inp: Input): real
  {
    inp.purchasePrice * inp.fxRate * DimensionalMultiplier(inp)
      * Lookup(MaleSupport, inp.isMaleSupport) * Lookup(ImportOrigin, inp.importFrom)
  }

  /** The full device breakdown for resolved inputs. The profit is a tenth
      of the total cost, so the margin is exactly 10% unless the cost is zero,
      when it is 0. */
  function Price(inp: Input): (b: Breakdown)
    ensures b.baseCost == inp.purchasePrice * inp.fxRate
    ensures b.dimensionalMultiplier == DimensionalMultiplier(inp)
    ensures b.totalCost
         == b.baseCost * b.dimensionalMultiplier
            * Lookup(MaleSupport, inp.isMaleSupport) * Lookup(ImportOrigin, inp.importFrom)
    ensures b.finalPrice == 1.1 * b.totalCost
    ensures b.profit == b.finalPrice - b.totalCost
    ensures b.profit == b.totalCost / 10.0
    ensures b.totalCost != 0.0 ==> b.profitMargin == 10.0
    ensures b.totalCost == 0.0 ==> b.profitMargin == 0.0
  {
    var baseCost := inp.purchasePrice * inp.fxRate;
    var dimensionalMultiplier := DimensionalMultiplier(inp);
    var totalCost := TotalCost(inp);
    var finalPrice := totalCost * 1.1;
    var profit := finalPrice - totalCost;
    var profitMargin := if totalCost == 0.0 then 0.0 else profit / totalCost * 100.0;
    Breakdown(baseCost, dimensionalMultiplier, totalCost, finalPrice, profit, profitMargin)
  }

  /** The total cost is zero exactly when the purchase price, the exchange
      rate or the dimensional multiplier is zero; the option multipliers
      never zero it. */
  lemma ZeroCost(inp: Input)
    ensures Price(inp).totalCost == 0.0
        <==> inp.purchasePrice == 0.0 || inp.fxRate == 0.0 || Price(inp).dimensionalMultiplier == 0.0
  {
  }

  /** Choosing male support multiplies the total cost, the final price and
      the profit by exactly 1.45, all else equal. */
  lemma MaleSupportScalesCost(inp: Input)
    ensures Price(inp.(isMaleSupport := "Yes")).totalCost == 1.45 * Price(inp.(isMaleSupport := "No")).totalCost
    ensures Price(inp.(isMaleSupport := "Yes")).finalPrice == 1.45 * Price(inp.(isMaleSupport := "No")).finalPrice
    ensures Price(inp.(isMaleSupport := "Yes")).profit == 1.45 * Price(inp.(isMaleSupport := "No")).profit
  {
    var yes, no := inp.(isMaleSupport := "Yes"), inp.(isMaleSupport := "No");
    ListedFactors();
    var a := inp.purchasePrice * inp.fxRate * DimensionalMultiplier(inp);
    var i := Lookup(ImportOrigin, inp.importFrom);
    assert DimensionalMultiplier(yes) == DimensionalMultiplier(no) == DimensionalMultiplier(inp);
    assert TotalCost(yes) == a * 1.45 * i;
    assert TotalCost(no) == a * 1.0 * i;
  }

  /** A request that sets none of the device fields is priced from the
      defaults (purchase price 44, exchange rate 50, 10 x 45 x 20 cm,
      0.3 kg, no male support, from the US). */
  lemma DefaultBreakdown(req: Request)
    requires SetsNoDeviceField(req)
    ensures Price(Resolve(req)) == Breakdown(2200.0, 13.0, 28600.0, 31460.0, 2860.0, 10.0)
  {
    ListedFactors();
  }
}

=== FILE: engine.dfy ===
/** The calculation entry point: reject a request object with no keys,
    otherwise send it to the supplement or the device pricer by its
    category. A missing category means supplement; every category other
    than exactly "supplement" is priced as a device. */
module PricingEngine {
  import opened Optional
  import opened Requests
  import SupplementPricing
  import DevicePricing

  /** The breakdown of whichever pricer handled the request. */
  datatype Quote =
    | SupplementQuote(supplement: SupplementPricing.Breakdown)
    | DeviceQuote(device: DevicePricing.Breakdown)

  /** Why a request is not priced. */
  datatype Error = NoInputData

  /** The category a request names, with a missing category read as "supplement". */
  function Category(req: Request): string
  {
    req.category.GetOr("supplement")
  }

  /** Prices a request. It fails only for a request with no keys at all;
      a present category selects the supplement pricer only when it is
      exactly "supplement", and each pricer sees the whole request. */
  function Calculate(req: Request): (r: Result<Quote, Error>)
    ensures r.Err? <==> IsEmpty(req)
    ensures r.Ok? ==>
      (r.value.SupplementQuote? <==> req.category.None? || req.category == Some("supplement"))
    ensures r.Ok? && r.value.SupplementQuote? ==>
      r.value.supplement == SupplementPricing.Price(SupplementPricing.Resolve(req))
    ensures r.Ok? && r.value.DeviceQuote? ==>
      r.value.device == DevicePricing.Price(DevicePricing.Resolve(req))
  {
    if IsEmpty(req) then Err(NoInputData)
    else if Category(req) == "supplement" then
      Ok(SupplementQuote(SupplementPricing.Price(SupplementPricing.Resolve(req))))
    else
      Ok(DeviceQuote(DevicePricing.Price(DevicePricing.Resolve(req))))
  }

  /** No category is rejected: "device", a differently cased "Supplement"
      and the empty string all reach the device pricer. */
  lemma OtherCategoriesAreDevices(req: Request)
    requires !IsEmpty(req)
    requires req.category in {Some("device"), Some("Supplement"), Some("")}
    ensures Calculate(req).Ok? && Calculate(req).value.DeviceQuote?
  {
  }

  /** Two non-empty requests with the same category and the same supplement
      fields get the same supplement quote, whatever their device fields or
      other keys. */
  lemma SupplementQuoteReadsOnlySupplementFields(a: Request, b: Request)
    requires !IsEmpty(a) && !IsEmpty(b)
    requires a.category == b.category && Category(a) == "supplement"
    requires a.purchasePrice == b.purchasePrice && a.fxRate == b.fxRate
    requires a.productShape == b.productShape && a.packingMaterial == b.packingMaterial
    requires a.bottleSize == b.bottleSize && a.count == b.count && a.dailyDose == b.dailyDose
    requires a.weightGrams == b.weightGrams
    requires a.isMaleSupport == b.isMaleSupport && a.importFrom == b.importFrom
    ensures Calculate(a) == Calculate(b)
  {
    assert SupplementPricing.Resolve(a) == SupplementPricing.Resolve(b);
  }

  /** Two non-empty requests with the same non-supplement category and the
      same device fields get the same device quote, whatever their supplement
      fields or other keys. */
  lemma DeviceQuoteReadsOnlyDeviceFields(a: Request, b: Request)
    requires !IsEmpty(a) && !IsEmpty(b)
    requires a.category == b.category && Category(a) != "supplement"
    requires a.purchasePrice == b.purchasePrice && a.fxRate == b.fxRate
    requires a.lengthCm == b.lengthCm && a.widthCm == b.widthCm && a.heightCm == b.heightCm
    requires a.weightKg == b.weightKg
    requires a.isMaleSupport == b.isMaleSupport && a.importFrom == b.importFrom
    ensures Calculate(a) == Calculate(b)
  {
    assert DevicePricing.Resolve(a) == DevicePricing.Resolve(b);
  }

  /** A request that carries only its category (or only keys no pricer
      reads) is priced entirely from the defaults: 4150 for a supplement,
      31460 for a device. */
  lemma DefaultQuotes(req: Request)
    requires !IsEmpty(req)
    requires SupplementPricing.SetsNoSupplementField(req) && DevicePricing.SetsNoDeviceField(req)
    ensures Calculate(req).Ok?
    ensures Calculate(req).value.SupplementQuote? ==> Calculate(req).value.supplement.finalPrice == 4150.0
    ensures Calculate(req).value.DeviceQuote? ==> Calculate(req).value.device.finalPrice == 31460.0
  {
    SupplementPricing.DefaultBreakdown(req);
    DevicePricing.DefaultBreakdown(req);
  }
}

=== FILE: multipliers.dfy ===
/** The constant multiplier table shared by both pricers, and the product
    of several looked-up multipliers (the supplement "x-factor"). */
module Multipliers {

  /** The five option families of the table. */
  datatype Family = MaleSupport | ProductShape | BottleSize | PackingMaterial | ImportOrigin

  /** The tabled factor of every listed option, per family. */
  function Table(f: Family): map<string, real>
  {
    match f
    case MaleSupport => map["Yes" := 1.45, "No" := 1.0]
    case ProductShape =>
      map["Capsules/Tablets" := 1.0, "Softgels/Chews" := 1.0, "Powder/Creamy" := 1.0,
          "Gummies" := 1.1, "Liquid" := 1.1, "Injection" := 1.2]
    case BottleSize => map["Small" := 0.9, "Normal" := 1.0, "Big" := 1.1, "Massive" := 1.2]
    case PackingMaterial => map["Plastic" := 1.0, "Glass" := 1.1, "Paper" := 1.06]
    case ImportOrigin => map["US" := 1.0, "UK" := 1.27, "EU" := 1.13, "NZ" := 0.72]
  }

  /** The multiplier of option `key` in family `f`. A key the family does not
      list is not an error: it silently counts as 1. Every multiplier, listed
      or not, lies between the smallest (0.72) and largest (1.45) tabled
      factor, so it is always positive. */
  function Lookup(f: Family, key: string): (r: real)
    ensures key !in Table(f) ==> r == 1.0
    ensures 0.72 <= r <= 1.45
  {
    if key in Table(f) then Table(f)[key] else 1.0
  }

  /** Every listed option has exactly its tabled factor. */
  lemma ListedFactors()
    ensures Lookup(MaleSupport, "Yes") == 1.45 && Lookup(MaleSupport, "No") == 1.0
    ensures Lookup(ProductShape, "Capsules/Tablets") == 1.0
    ensures Lookup(ProductShape, "Softgels/Chews") == 1.0
    ensures Lookup(ProductShape, "Powder/Creamy") == 1.0
    ensures Lookup(ProductShape, "Gummies") == 1.1
    ensures Lookup(ProductShape, "Liquid") == 1.1
    ensures Lookup(ProductShape, "Injection") == 1.2
    ensures Lookup(BottleSize, "Small") == 0.9 && Lookup(BottleSize, "Normal") == 1.0
    ensures Lookup(BottleSize, "Big") == 1.1 && Lookup(BottleSize, "Massive") == 1.2
    ensures Lookup(PackingMaterial, "Plastic") == 1.0
    ensures Lookup(PackingMaterial, "Glass") == 1.1
    ensures Lookup(PackingMaterial, "Paper") == 1.06
    ensures Lookup(ImportOrigin, "US") == 1.0 && Lookup(ImportOrigin, "UK") == 1.27
    ensures Lookup(ImportOrigin, "EU") == 1.13 && Lookup(ImportOrigin, "NZ") == 0.72
  {
  }

  /** Lookups are case-sensitive exact matches: a differently spelled option
      is unlisted and counts as 1. */
  lemma LookupIsCaseSensitive()
    ensures Lookup(MaleSupport, "yes") == 1.0
    ensures Lookup(ProductShape, "gummies") == 1.0
    ensures Lookup(ImportOrigin, "us") == 1.0 && Lookup(ImportOrigin, "") == 1.0
  {
  }

  /** The product of a sequence of factors, multiplied left to right. */
  function Product(fs: seq<real>): real
  {
    if |fs| == 0 then 1.0 else Product(fs[..|fs| - 1]) * fs[|fs| - 1]
  }

  /** Scaling one factor by `c` scales the whole product by `c`. */
  lemma {:induction false} ProductScale(fs: seq<real>, i: int, c: real)
    requires 0 <= i < |fs|
    ensures Product(fs[i := c * fs[i]]) == c * Product(fs)
    decreases |fs|
  {
    var n := |fs| - 1;
    var init, last := fs[..n], fs[n];
    var gs := fs[i := c * fs[i]];
    assert Product(fs) == Product(init) * last;
    if i == n {
      assert gs[..n] == init;
      assert Product(gs) == Product(init) * (c * last);
    } else {
      var hs := init[i := c * init[i]];
      assert forall k :: 0 <= k < n ==> gs[..n][k] == hs[k];
      assert gs[..n] == hs;
      ProductScale(init, i, c);
      assert Product(gs) == (c * Product(init)) * last;
    }
  }

  /** A product of positive factors is positive. */
  lemma {:induction false} ProductPositive(fs: seq<real>)
    requires forall i :: 0 <= i < |fs| ==> 0.0 < fs[i]
    ensures 0.0 < Product(fs)
  {
    if |fs| > 0 {
      var n := |fs| - 1;
      ProductPositive(fs[..n]);
    }
  }

  /** Five factors multiply left to right: `a * b * c * d * e`. */
  lemma ProductOfFive(a: real, b: real, c: real, d: real, e: real)
    ensures Product([a, b, c, d, e]) == a * b * c * d * e
  {
    assert [a][..0] == [];
    assert Product([a]) == a;
    assert [a, b][..1] == [a];
    assert Product([a, b]) == a * b;
    assert [a, b, c][..2] == [a, b];
    assert Product([a, b, c]) == a * b * c;
    assert [a, b, c, d][..3] == [a, b, c];
    assert Product([a, b, c, d]) == a * b * c * d;
    assert [a, b, c, d, e][..4] == [a, b, c, d];
  }
}

=== FILE: optional.dfy ===
/** Absent-or-present values and success-or-error results. */
module Optional {

  /** A field of the request object that may be missing. */
  datatype Option<+T> = None | Some(value: T) {

    /** The present value, or `default` when the field is missing. */
    function GetOr(default: T): T
    {
      match this
      case Some(v) => v
      case None => default
    }
  }

  /** `v` is what the field `o` resolves to when `d` is its default: the
      value given when the field is present, `d` when it is missing. */
  predicate ResolvesTo<T(==)>(o: Option<T>, d: T, v: T)
  {
    o == Some(v) || (o == None && v == d)
  }

  /** The outcome of a calculation request. */
  datatype Result<+T, +E> = Ok(value: T) | Err(error: E)
}

=== FILE: request.dfy ===
/** The JSON object a client posts for a price calculation, with every raw
    value already a number or an option string. Any field may be missing;
    each pricer substitutes its own default for a missing field. */
module Requests {
  import opened Optional

  datatype Request = Request(
    category: Option<string>,
    purchasePrice: Option<real>,
    fxRate: Option<real>,
    // supplement fields
    productShape: Option<string>,
    packingMaterial: Option<string>,
    bottleSize: Option<string>,
    count: Option<real>,
    dailyDose: Option<real>,
    weightGrams: Option<real>,
    // device fields
    lengthCm: Option<real>,
    widthCm: Option<real>,
    heightCm: Option<real>,
    weightKg: Option<real>,
    // read by both pricers
    isMaleSupport: Option<string>,
    importFrom: Option<string>,
    // how many further keys the object carries that no pricer reads
    otherKeys: nat)

  /** The object with no keys at all. */
  const NoFields: Request :=
    Request(None, None, None, None, None, None, None, None, None,
            None, None, None, None, None, None, 0)

  /** The object has no keys at all (it is falsy to the endpoint). */
  predicate IsEmpty(req: Request)
  {
    req == NoFields
  }
}

=== FILE: rounding.dfy ===
/** Rounding a price up to the next multiple of ten. */
module Rounding {

  /** The ceiling of `x`: the least integer not below it. */
  function Ceil(x: real): (n: int)
    ensures x <= n as real < x + 1.0
  {
    -((-x).Floor)
  }

  /** `x` is an integer multiple of ten. */
  predicate IsMultipleOfTen(x: real)
  {
    (x / 10.0).Floor as real == x / 10.0
  }

  /** `x` rounded up to a multiple of ten: the ceiling of `x / 10`, times ten. */
  function CeilToTen(x: real): (r: real)
    ensures IsMultipleOfTen(r)
    ensures x <= r < x + 10.0
  {
    Ceil(x / 10.0) as real * 10.0
  }

  /** `CeilToTen(x)` is the least multiple of ten at or above `x`. */
  lemma CeilToTenIsLeast(x: real, m: real)
    requires IsMultipleOfTen(m) && x <= m
    ensures CeilToTen(x) <= m
  {
    var k := (m / 10.0).Floor;
    var n := Ceil(x / 10.0);
    assert x / 10.0 <= m / 10.0;
    assert n as real < k as real + 1.0;
    assert n <= k;
    assert CeilToTen(x) == n as real * 10.0;
    assert m == k as real * 10.0;
  }

  /** Rounding up to a multiple of ten is monotone and leaves multiples of
      ten unchanged. */
  lemma CeilToTenMonotone(x: real, y: real)
    requires x <= y
    ensures CeilToTen(x) <= CeilToTen(y)
    ensures IsMultipleOfTen(x) ==> CeilToTen(x) == x
  {
    CeilToTenIsLeast(x, CeilToTen(y));
    if IsMultipleOfTen(x) {
      CeilToTenIsLeast(x, x);
    }
  }
}

=== FILE: supplement.dfy ===
/** Pricing of a supplement: an x-factor from five option multipliers, a
    capped dosage factor from the days of supply, a cost built from both, and
    a price marked up by 5% and rounded up to a multiple of ten. */
module SupplementPricing {
  import opened Optional
  import opened Requests
  import opened Multipliers
  import opened Rounding

  /** The supplement fields of a request once every missing one has its default. */
  datatype Input = Input(
    purchasePrice: real,
    fxRate: real,
    productShape: string,
    packingMaterial: string,
    bottleSize: string,
    isMaleSupport: string,
    importFrom: string,
    count: real,
    dailyDose: real,
    weightGrams: real)

  /** The cost and price breakdown returned for a supplement. */
  datatype Breakdown = Breakdown(
    baseCost: real,
    xfactor: real,
    productCost: real,
    adjustedCost: real,
    dosageAdjustment: real,
    dosage: real,
    daysSupply: real,
    totalCost: real,
    finalPrice: real,
    markup: real,
    markupPercentage: real)

  /** Fixed cost added to every supplement, in local currency. */
  const BaseCost: real := 380.0

  /** The largest dosage factor. */
  const MaxDosage: real := 3.0

  /** The value each supplement field takes when the request leaves it out:
      purchase price 44, exchange rate 50, capsules in paper, a normal bottle,
      no male support, from the US, 120 units at 2 a day, 100 g. */
  const SupplementDefaults: Input :=
    Input(44.0, 50.0, "Capsules/Tablets", "Paper", "Normal", "No", "US", 120.0, 2.0, 100.0)

  /** Reads the supplement fields of a request: a present field is taken as
      given, a missing one gets its default. */
  function Resolve(req: Request): (r: Input)
    ensures ResolvesTo(req.purchasePrice, SupplementDefaults.purchasePrice, r.purchasePrice)
    ensures ResolvesTo(req.fxRate, SupplementDefaults.fxRate, r.fxRate)
    ensures ResolvesTo(req.productShape, SupplementDefaults.productShape, r.productShape)
    ensures ResolvesTo(req.packingMaterial, SupplementDefaults.packingMaterial, r.packingMaterial)
    ensures ResolvesTo(req.bottleSize, SupplementDefaults.bottleSize, r.bottleSize)
    ensures ResolvesTo(req.isMaleSupport, SupplementDefaults.isMaleSupport, r.isMaleSupport)
    ensures ResolvesTo(req.importFrom, SupplementDefaults.importFrom, r.importFrom)
    ensures ResolvesTo(req.count, SupplementDefaults.count, r.count)
    ensures ResolvesTo(req.dailyDose, SupplementDefaults.dailyDose, r.dailyDose)
    ensures ResolvesTo(req.weightGrams, SupplementDefaults.weightGrams, r.weightGrams)
    ensures SetsNoSupplementField(req) ==> r == SupplementDefaults
  {
    Input(
      req.purchasePrice.GetOr(SupplementDefaults.purchasePrice),
      req.fxRate.GetOr(SupplementDefaults.fxRate),
      req.productShape.GetOr(SupplementDefaults.productShape),
      req.packingMaterial.GetOr(SupplementDefaults.packingMaterial),
      req.bottleSize.GetOr(SupplementDefaults.bottleSize),
      req.isMaleSupport.GetOr(SupplementDefaults.isMaleSupport),
      req.importFrom.GetOr(SupplementDefaults.importFrom),
      req.count.GetOr(SupplementDefaults.count),
      req.dailyDose.GetOr(SupplementDefaults.dailyDose),
      req.weightGrams.GetOr(SupplementDefaults.weightGrams))
  }

  /** The request sets none of the fields the supplement pricer reads. */
  predicate SetsNoSupplementField(req: Request)
  {
    && req.purchasePrice.None? && req.fxRate.None?
    && req.productShape.None? && req.packingMaterial.None? && req.bottleSize.None?
    && req.isMaleSupport.None? && req.importFrom.None?
    && req.count.None? && req.dailyDose.None? && req.weightGrams.None?
  }

  /** The option multipliers of the x-factor, in the order they are multiplied:
      shape, packing, bottle size, male support, import origin. */
  function Factors(inp: Input): seq<real>
  {
    [Lookup(ProductShape, inp.productShape),
     Lookup(PackingMaterial, inp.packingMaterial),
     Lookup(BottleSize, inp.bottleSize),
     Lookup(MaleSupport, inp.isMaleSupport),
     Lookup(ImportOrigin, inp.importFrom)]
  }

  /** The x-factor: the product of the five option multipliers, multiplied
      shape first. It is positive whatever options are chosen. */
  function XFactor(inp: Input): (x: real)
    ensures 0.0 < x
  {
    var fs := Factors(inp);
    ProductPositive(fs);
    Product(fs)
  }

  /** The x-factor is the shape, packing, bottle-size, male-support and
      import multipliers `a` to `e` multiplied in that order. */
  lemma XFactorValue(inp: Input, a: real, b: real, c: real, d: real, e: real)
    requires a == Lookup(ProductShape, inp.productShape) && b == Lookup(PackingMaterial, inp.packingMaterial)
    requires c == Lookup(BottleSize, inp.bottleSize) && d == Lookup(MaleSupport, inp.isMaleSupport)
    requires e == Lookup(ImportOrigin, inp.importFrom)
    ensures XFactor(inp) == a * b * c * d * e
  {
    assert Factors(inp) == [a, b, c, d, e];
    ProductOfFive(a, b, c, d, e);
  }

  /** Days of supply: `count / dailyDose`, where a zero daily dose is read
      as a dose of 1 rather than rejected. */
  function DaysSupply(count: real, dailyDose: real): (days: real)
    ensures dailyDose == 0.0 ==> days == count
    ensures dailyDose != 0.0 ==> days * dailyDose == count
  {
    var divisor := if dailyDose == 0.0 then 1.0 else dailyDose;
    count / divisor
  }

  /** The dosage factor: three divided by the months of supply, capped at
      three; with no supply at all it is three. It never exceeds three, and
      it is positive whenever the supply is not negative. */
  function Dosage(daysSupply: real): (dosage: real)
    ensures dosage <= MaxDosage
    ensures daysSupply == 0.0 ==> dosage == MaxDosage
    ensures 0.0 <= daysSupply ==> 0.0 < dosage
  {
    var dose :=
      if daysSupply == 0.0 then MaxDosage
      else
        var monthsSupply := daysSupply / 30.0;
        // Over the reals this branch is dead; it guards a float underflow.
        if monthsSupply == 0.0 then MaxDosage else 3.0 / monthsSupply;
    if dose <= MaxDosage then dose else MaxDosage
  }

  /** The purchase price scaled by the x-factor `x` and converted at rate
      `fx`, plus shipping of `weightGrams` at 32 per kilogram, converted. */
  function ProductCostFor(purchasePrice: real, x: real, fx: real, weightGrams: real): real
  {
    purchasePrice * x * fx + weightGrams * 32.0 * fx / 1000.0
  }

  /** The product cost of resolved inputs, at their own x-factor. */
  function ProductCost(inp: Input): real
  {
    ProductCostFor(inp.purchasePrice, XFactor(inp), inp.fxRate, inp.weightGrams)
  }

  /** The supplement cost before markup: base cost, 1.4 times the product
      cost, and 50 for every unit the dosage factor falls short of 3. */
  function TotalCost(inp: Input): real
  {
    BaseCost + 1.4 * ProductCost(inp) + 50.0 * (MaxDosage - Dosage(DaysSupply(inp.count, inp.dailyDose)))
  }

  /** The full supplement breakdown for resolved inputs. Its fields add up:
      the adjusted cost is 1.4 times the product cost, the dosage adjustment
      is 50 for every unit the dosage factor falls short of 3, and the total
      is the base cost plus both. */
  function Price(inp: Input): (b: Breakdown)
    ensures b.xfactor == XFactor(inp)
    ensures b.daysSupply == DaysSupply(inp.count, inp.dailyDose)
    ensures b.dosage == Dosage(b.daysSupply)
    ensures b.productCost == ProductCostFor(inp.purchasePrice, b.xfactor, inp.fxRate, inp.weightGrams)
    ensures b.baseCost == BaseCost
    ensures b.adjustedCost == 1.4 * b.productCost
    ensures b.dosageAdjustment == 50.0 * (MaxDosage - b.dosage)
    ensures b.totalCost == b.baseCost + b.adjustedCost + b.dosageAdjustment
    ensures b.dosage <= MaxDosage && b.dosageAdjustment >= 0.0
    ensures b.totalCost >= BaseCost + 1.4 * b.productCost
    ensures IsMultipleOfTen(b.finalPrice)
    ensures 1.05 * b.totalCost <= b.finalPrice < 1.05 * b.totalCost + 10.0
    ensures b.markup == b.finalPrice - b.totalCost
    ensures b.markup >= 0.05 * b.totalCost
    ensures b.totalCost != 0.0 ==> b.markupPercentage * b.totalCost == 100.0 * b.markup
    ensures b.totalCost == 0.0 ==> b.finalPrice == 0.0 && b.markupPercentage == 0.0
  {
    var xfactor := XFactor(inp);
    var daysSupply := DaysSupply(inp.count, inp.dailyDose);
    var dosage := Dosage(daysSupply);
    var productCost := ProductCost(inp);
    var adjustedCost := 1.4 * productCost;
    var dosageAdjustment := 50.0 * (MaxDosage - dosage);
    var totalCost := TotalCost(inp);
    var finalPrice := CeilToTen(totalCost * 1.05);
    MarkupOf(totalCost);
    var markup := finalPrice - totalCost;
    var markupPercentage := if totalCost == 0.0 then 0.0 else markup / totalCost * 100.0;
    Breakdown(BaseCost, xfactor, productCost, adjustedCost, dosageAdjustment, dosage,
              daysSupply, totalCost, finalPrice, markup, markupPercentage)
  }

  // The markup on a cost `t` after adding 5% and rounding up to ten: at
  // least 5% of the cost, with a percentage that times the cost is 100
  // times the markup; a zero cost has a zero price.
  lemma MarkupOf(t: real)
    ensures CeilToTen(t * 1.05) - t >= 0.05 * t
    ensures t != 0.0 ==> (CeilToTen(t * 1.05) - t) / t * 100.0 * t == 100.0 * (CeilToTen(t * 1.05) - t)
    ensures t == 0.0 ==> CeilToTen(t * 1.05) == 0.0
  {
    CeilToTenMonotone(0.0, 0.0);
  }

  /** The final price is the least multiple of ten that covers cost plus 5%. */
  lemma FinalPriceIsLeast(inp: Input, m: real)
    requires IsMultipleOfTen(m) && 1.05 * Price(inp).totalCost <= m
    ensures Price(inp).finalPrice <= m
  {
    CeilToTenIsLeast(Price(inp).totalCost * 1.05, m);
  }

  /** Closed form of the dosage factor: three for a supply of up to thirty
      days (and for none), otherwise ninety divided by the days of supply. */
  lemma DosageClosedForm(daysSupply: real)
    ensures Dosage(daysSupply) == if 0.0 <= daysSupply <= 30.0 then MaxDosage else 90.0 / daysSupply
  {
    if daysSupply != 0.0 {
      var monthsSupply := daysSupply / 30.0;
      assert 3.0 / monthsSupply == 90.0 / daysSupply;
      if 0.0 < daysSupply <= 30.0 {
        assert 90.0 / daysSupply >= 3.0;
      } else if daysSupply > 30.0 {
        assert 90.0 / daysSupply < 3.0;
      } else {
        assert 90.0 / daysSupply < 0.0;
      }
    }
  }

  /** The zero-divisor policy: a zero daily dose makes the days of supply
      equal to the count, and no supply at all gives the maximal dosage
      factor and no dosage adjustment. */
  lemma ZeroDivisorPolicy(inp: Input)
    ensures inp.dailyDose == 0.0 ==> Price(inp).daysSupply == inp.count
    ensures inp.count == 0.0 ==> Price(inp).dosage == MaxDosage && Price(inp).dosageAdjustment == 0.0
  {
  }

  /** With non-negative price, exchange rate and weight the product cost is
      not negative. */
  lemma ProductCostNonNegative(inp: Input)
    requires inp.purchasePrice >= 0.0 && inp.fxRate >= 0.0 && inp.weightGrams >= 0.0
    ensures Price(inp).productCost >= 0.0
  {
    var x := XFactor(inp);
    var p, fx, w := inp.purchasePrice, inp.fxRate, inp.weightGrams;
    assert p * x >= 0.0;
    assert p * x * fx >= 0.0;
    assert w * 32.0 * fx >= 0.0;
  }

  /** With non-negative price, exchange rate and weight the cost is at least
      the base cost and the price is at least 400. */
  lemma NonNegativeInputsCost(inp: Input)
    requires inp.purchasePrice >= 0.0 && inp.fxRate >= 0.0 && inp.weightGrams >= 0.0
    ensures Price(inp).totalCost >= BaseCost
    ensures Price(inp).finalPrice >= 400.0
  {
    ProductCostNonNegative(inp);
    var t := Price(inp).totalCost;
    assert CeilToTen(399.0) == 400.0 by {
      assert Ceil(39.9) == 40;
    }
    CeilToTenMonotone(399.0, t * 1.05);
  }

  /** With non-negative price, exchange rate and weight the markup is at
      least 5% of the total cost. */
  lemma NonNegativeInputsMarkup(inp: Input)
    requires inp.purchasePrice >= 0.0 && inp.fxRate >= 0.0 && inp.weightGrams >= 0.0
    ensures Price(inp).markupPercentage >= 5.0
  {
    NonNegativeInputsCost(inp);
    var b := Price(inp);
    PercentageAtLeast(b.totalCost, b.markup, b.markupPercentage);
  }

  // A percentage of a positive whole whose part is at least 5% of it is at least 5.
  lemma PercentageAtLeast(t: real, m: real, pct: real)
    requires t > 0.0 && pct * t == 100.0 * m && m >= 0.05 * t
    ensures pct >= 5.0
  {
  }

  /** Choosing male support multiplies the x-factor by exactly 1.45, all
      else equal. */
  lemma MaleSupportScalesXFactor(inp: Input)
    ensures XFactor(inp.(isMaleSupport := "Yes")) == 1.45 * XFactor(inp.(isMaleSupport := "No"))
  {
    ListedFactors();
    var fs := Factors(inp.(isMaleSupport := "No"));
    assert Factors(inp.(isMaleSupport := "Yes")) == fs[3 := 1.45 * fs[3]];
    ProductScale(fs, 3, 1.45);
  }

  /** Male support adds 0.45 times the converted, x-factor-scaled purchase
      cost to the product cost, all else equal. */
  lemma MaleSupportProductCost(inp: Input)
    ensures ProductCost(inp.(isMaleSupport := "Yes"))
         == ProductCost(inp.(isMaleSupport := "No"))
            + 0.45 * (inp.purchasePrice * XFactor(inp.(isMaleSupport := "No")) * inp.fxRate)
  {
    MaleSupportScalesXFactor(inp);
    var x := XFactor(inp.(isMaleSupport := "No"));
    ScaledTerm(inp.purchasePrice, x, inp.fxRate, 1.45);
  }

  // Scaling the middle factor of a product by c adds (c - 1) times the product.
  lemma ScaledTerm(p: real, x: real, fx: real, c: real)
    ensures p * (c * x) * fx == p * x * fx + (c - 1.0) * (p * x * fx)
  {
  }

  /** Male support raises the supplement total cost by 1.4 times the extra
      0.45 share of the converted, x-factor-scaled purchase cost; unlike the
      device total it is not scaled by 1.45 as a whole. */
  lemma MaleSupportCostIncrease(inp: Input)
    ensures TotalCost(inp.(isMaleSupport := "Yes"))
         == TotalCost(inp.(isMaleSupport := "No"))
            + 0.63 * (inp.purchasePrice * XFactor(inp.(isMaleSupport := "No")) * inp.fxRate)
  {
    MaleSupportProductCost(inp);
  }

  /** A request that sets none of the supplement fields is priced from the
      defaults (purchase price 44, exchange rate 50, 120 units at 2 a day,
      100 g, capsules in paper, normal bottle, no male support, from the US). */
  lemma DefaultBreakdown(req: Request)
    requires SetsNoSupplementField(req)
    ensures Price(Resolve(req)) == Breakdown(
      380.0, 1.06, 2492.0, 3488.8, 75.0, 1.5, 60.0, 3943.8, 4150.0, 206.2, 206.2 / 3943.8 * 100.0)
    ensures 5.225 <= Price(Resolve(req)).markupPercentage < 5.235
  {
    var inp := Resolve(req);
    ListedFactors();
    XFactorValue(inp, 1.0, 1.06, 1.0, 1.0, 1.0);
    assert XFactor(inp) == 1.06;
    assert DaysSupply(120.0, 2.0) == 60.0;
    DosageClosedForm(60.0);
    assert Dosage(60.0) == 1.5;
    assert 3943.8 * 1.05 == 4140.99;
    assert CeilToTen(4140.99) == 4150.0 by {
      assert Ceil(414.099) == 415;
    }
  }
}
